=== FILE: README.md ===
# Stock dashboard: series-shaping pipeline

A Dafny model of the data-shaping core of a small stock-market dashboard. The
dashboard fetches a time-series payload from a quote provider and draws two
views of it: a candlestick chart and a table of recent trading data. Both
views run the same pipeline on the parsed payload:

1. pick the payload key for the interval (daily, weekly or monthly). The
   name is compared case-insensitively, and any other name falls back to
   the daily series;
2. read each record's five values in order as open, high, low, close and
   volume. A missing key, an empty series, a record without exactly five
   values, or a value that is not a number makes the whole view produce
   nothing. The model reads records by position; the source matches fields
   by name (see "Left out" for what that changes);
3. sort by date: ascending for the chart, descending for the table;
4. compute the period's cutoff. For the six named periods this is "now"
   minus 1, 3 or 6 calendar months or 1, 5 or 10 calendar years, with the
   day clamped to the end of the target month. "max" disables the filter.
   Any other name uses the earliest date of the series as the cutoff;
5. keep the rows dated at or after the cutoff;
6. the table shows only the first ten rows.

Modules, one per file:

- `Outcomes` (outcomes.dfy): `Option` and `Result`.
- `Calendar` (calendar.dfy): dates, timestamps and month/year offsets.
- `Intervals` (intervals.dfy): upper-casing and the interval-to-key choice.
- `Listing` (listing.dfy): the sorted listing of a set of dates, and `Reverse`.
- `Periods` (periods.dfy): period names, offsets and cutoffs.
- `Normalizer` (normalizer.dfy): payload to rows, plus the filter.
- `Dashboard` (dashboard.dfy): the chart path, the table path and one render pass.

"Now" is a parameter: a `Timestamp` made of a date and the nanoseconds since
midnight. The chart path and the table path each read the clock, so
`Dashboard.Render` takes two timestamps. Payload dates are midnight, so a
row dated on the cutoff's own day is kept only when the cutoff is exactly
midnight (`Calendar.MidnightAtOrAfter`).

## Model

| member | source | states |
|---|---|---|
| `Intervals.SelectedKey` | app/main.py:104-111 | The key is always one of the three series keys. It is the weekly key iff the upper-cased name is "WEEKLY", the monthly key iff it is "MONTHLY", and the daily key for every other name. |
| `Intervals.Upper` | app/main.py:104 | Upper-casing keeps the length and leaves no lower-case ASCII letter. Each of them becomes its own capital, dotless i becomes "I" and long s becomes "S", and every other character is unchanged. `Intervals.UpperIdempotent` adds that upper-casing twice changes nothing. |
| `Intervals.ParseIntervalName` | app/main.py:27-31 | Each interval the selector offers selects its own series. |
| `Intervals.SelectionIgnoresCase` | app/main.py:104-109 | Names that agree once upper-cased select the same interval, which is also what their upper-case form selects. |
| `Intervals.UnknownIntervalFallsBack` | app/main.py:110-111 | "QUARTERLY" and the empty name fall back to the daily key, and a mixed-case "wEeKlY" selects the weekly key. |
| `Calendar.MonthsBefore` | app/main.py:133-137 | The result is a valid date exactly k months earlier. Its day is the original day, or the last day of the target month when the original day does not fit. |
| `Calendar.SubMonths` | app/main.py:133-137 | Subtracting a month offset gives a valid timestamp k months earlier with the same time of day. |
| `Calendar.SubYears` | app/main.py:139-143 | Subtracting a year offset keeps the month and the time of day and moves the year back by k. The day changes only when 29 February lands in a non-leap year, where it becomes the 28th. |
| `Calendar.SubYearsIsTwelveMonths` | app/main.py:139-143 | An offset of k years equals an offset of 12k months. |
| `Calendar.SubMonthsEarlier` | app/main.py:132-143 | A positive offset gives a timestamp strictly before "now". |
| `Calendar.SubMonthsAntitone` | app/main.py:132-143 | A longer offset gives an earlier cutoff. It is strictly earlier by date when the offsets differ. |
| `Calendar.MidnightAtOrAfter` | app/main.py:148 | A midnight row date passes the `>=` test iff it is a later day than the cutoff, or the cutoff's own day with the cutoff at midnight. |
| `Listing.Sort` | app/main.py:119 | The listing is strictly sorted in the requested direction, has one entry per date, and holds exactly the set's dates. |
| `Listing.SortedListingUnique` | app/main.py:290 | Two strictly sorted listings of the same dates are equal. |
| `Listing.DescendingIsReverse` | app/main.py:290 | The descending listing is exactly the reverse of the ascending one. |
| `Periods.Subtract` | app/main.py:133-143 | Each named offset, in months or in years, equals subtracting its length in months. |
| `Periods.PeriodStart` | app/main.py:129-145 | Only "max" skips the comparison. A named period's cutoff is "now" minus its offset. Any other name's cutoff is at or before every date of the series. |
| `Periods.CutoffBeforeNow` | app/main.py:132-143 | Every named period's cutoff is strictly before "now". |
| `Periods.NamedPeriodSpans` | app/main.py:33-41 | Each named period of the selector has an offset, and the offsets grow strictly in selector order. |
| `Periods.CutoffsNested` | app/main.py:132-143 | Along the selector order from "1 Month" to "10 Years", each later period's cutoff date is strictly before each earlier one's. |
| `Periods.ShorterPeriodKeepsLess` | app/main.py:132-148 | A date kept by a shorter named period is kept by a longer one. |
| `Periods.WholeHistoryPeriods` | app/main.py:144-145 | "max" and every unrecognised period name keep every date of the series. |
| `Normalizer.RowsOf` | app/main.py:117-126 | There is one row per date, in the given order. Each row carries that date's five values in order. |
| `Normalizer.Listed` | app/main.py:117-126 | The sorted rows number as many as the records, are strictly sorted, and are exactly the records' rows. |
| `Normalizer.KeepFrom` | app/main.py:148 | The filter keeps exactly the rows dated at or after the start, as a subsequence of the input. |
| `Normalizer.Window` | app/main.py:129-148 | Without a cutoff ("max") the filter returns its input unchanged. With a cutoff it keeps exactly the rows dated at or after it. Either way the output is a subsequence of the input. |
| `Normalizer.KeptRowsStaySorted` | app/main.py:148 | Dropping rows from a strictly sorted sequence leaves it strictly sorted. |
| `Normalizer.Normalize` | app/main.py:100-148 | With records read by position, the pipeline fails iff the selected key is missing or its series is empty, has a record without five values, or has a non-numeric value. On success the rows are strictly sorted in the requested direction and are exactly the rows of the series' dates that survive the period filter. |
| `Normalizer.FailureReasons` | app/main.py:114-126 | A missing key, a wrong column count and a non-numeric value each give their own failure, and each happens exactly in its own case. |
| `Normalizer.KeepFromReverse` | app/main.py:317 | Filtering a reversed sequence gives the reverse of filtering it. |
| `Normalizer.DescendingReversesAscending` | app/main.py:287-317 | The descending pipeline succeeds iff the ascending one does. Its rows are then exactly the ascending rows reversed. |
| `Normalizer.WholeHistory` | app/main.py:129-145 | With "max" or an unrecognised period name, a successful output has one row per payload entry and contains every record's row. |
| `Normalizer.KeepFromAll` | app/main.py:144-148 | When every row is at or after the start, the filter returns its input unchanged. |
| `Normalizer.NamedPeriodFilter` | app/main.py:132-148 | For a named period, a date's row is kept iff the date is at or after "now" minus the offset, and the kept rows are a subsequence of the sorted series. |
| `Normalizer.ShorterPeriodSubset` | app/main.py:132-148 | For two named periods, the pipeline succeeds for one iff it succeeds for the other. Every row shown for the shorter period is also shown for the longer one. |
| `Dashboard.Chart` | app/main.py:100-148 | The chart's rows are strictly ascending by date. |
| `Dashboard.Take` | app/main.py:320 | `head(n)` returns the first min(n, length) rows. |
| `Dashboard.Table` | app/main.py:277-320 | The table shows at most ten rows, strictly descending by date, and succeeds iff the chart does. |
| `Dashboard.Render` | app/main.py:270-320 | A pass shows something iff the selected series is present and well formed. The chart is ascending, the table descending with at most ten rows. |
| `Dashboard.TableIsChartReversed` | app/main.py:287-320 | When both paths read the same "now", the table is the first ten rows of the chart's rows reversed. |
| `Dashboard.TableHoldsMostRecent` | app/main.py:320 | The table shows the first min(10, n) of the n filtered descending rows, and every filtered row it leaves out is older than every row it shows. |
| `Dashboard.SingleRecordExample` | app/main.py:114-126 | A one-record daily payload with period "max" gives exactly that record as one row. |
| `Dashboard.TextValueFails` | app/main.py:124-126 | A text value in a record gives no chart and no page content. Values are converted before the period filter, so this holds whether or not the filter would keep that record. |

## Left out

- Fetching the data (app/main.py:68-95) is network I/O and is not modelled. So is its use of the global stock selection instead of its `symbol` argument.
- The certificate-verification patch (app/main.py:46-63) changes library behaviour and has nothing to state.
- Building and laying out the Plotly figure (app/main.py:151-170) and its title are left out. The model stops at the rows the chart plots.
- The Streamlit widgets, session state, refresh timestamp, page layout and overview display (app/main.py:182-267) are user interface. This includes reading `Symbol` from the overview before the chart is drawn.
- Dashboard.Table: prices are not rounded to two decimals and volume is not truncated to an integer (app/main.py:295-296). Both are floating-point behaviour, so the table's rows carry the same values as the chart's.
- Parsing text into numbers is abstracted. A record value is either `Number(v)`, a finite number `pd.to_numeric` accepts, or `Text(s)`, what it rejects. Prices and volume are exact reals. Non-finite values ("inf", "nan") are not modelled.
- Dashboard.Render: the table's volume conversion to integers (app/main.py:296) runs outside any error handler. A non-finite volume, such as "inf" or a NaN from a missing field, lets the chart succeed and then raises there, ending the page instead of producing nothing. The model's values are finite, so its table path cannot fail after the chart.
- Parsing date strings is abstracted: payload keys are `Date` values.
- Normalizer.Normalize: records are positional sequences of values, and a series counts as rectangular when every record has five. The source builds the columns from the union of the records' field names (app/main.py:117) and then names five columns (line 122). Three consequences are not modelled:
  - a record missing a field that other records carry gets NaN there instead of failing;
  - records that each have five fields under different names give more than five columns, so the source fails where the model succeeds;
  - a record that lists the same five names in another order keeps each value under its own name in the source, while the model reads it by position.
- The bounds of the timestamp type (years 1677 to 2262) are not modelled. "Now" comes from the wall clock, and the offsets are at most ten years.
- Intervals.Upper: it changes only the ASCII lower-case letters, the dotless i and the long s. Python's `upper()` also capitalises every other cased letter, one to one (é to É, α to Α), and expands some characters into several, such as the sharp s into "SS". The one-to-one capitals are not ASCII letters. The only expansions made entirely of ASCII letters are the sharp s ("SS") and the Latin ligatures ("FF", "FI", "FL", "FFI", "FFL", "ST"). Each of these contains an S or an F, and "DAILY", "WEEKLY" and "MONTHLY" contain neither. Every other expansion that contains an ASCII letter also keeps a non-ASCII character, such as the ring in "W̊" from ẘ. So the key choice is the same as the source's.
- The month and year offsets are not monotone in "now" at timestamp level. Because of day clamping, 30 and 31 March both map to the end of February, and the time of day then decides. So the model relates the chart and the table only when both read the same "now".

=== FILE: calendar.dfy ===
/** Calendar dates, wall-clock timestamps, and the calendar offsets that the
    period filter subtracts from "now".  Subtracting `months` or `years`
    moves to the target month, clamps the day to the last day of that month
    when it does not fit, and keeps the time of day.  The calendar is the
    proleptic Gregorian one. */
module Calendar {

  /** A calendar day; the payload's keys are dates at midnight. */
  datatype Date = Date(year: int, month: int, day: int)

  const NanosPerDay: nat := 86_400_000_000_000

  /** A timestamp: a date plus the nanoseconds elapsed since its midnight. */
  datatype Timestamp = Timestamp(date: Date, nanos: nat)

  predicate IsLeapYear(y: int) {
    y % 4 == 0 && (y % 100 != 0 || y % 400 == 0)
  }

  function DaysInMonth(y: int, m: int): (n: int)
    requires 1 <= m <= 12
    ensures 28 <= n <= 31
    ensures n == 29 <==> m == 2 && IsLeapYear(y)
  {
    if m == 2 then (if IsLeapYear(y) then 29 else 28)
    else if m == 4 || m == 6 || m == 9 || m == 11 then 30
    else 31
  }

  predicate ValidDate(d: Date) {
    1 <= d.month <= 12 && 1 <= d.day <= DaysInMonth(d.year, d.month)
  }

  predicate ValidTimestamp(t: Timestamp) {
    ValidDate(t.date) && t.nanos < NanosPerDay
  }

  /** The timestamp at which a date begins. */
  function Midnight(d: Date): Timestamp {
    Timestamp(d, 0)
  }

  /** Strict chronological order of dates. */
  predicate Before(a: Date, b: Date) {
    || a.year < b.year
    || (a.year == b.year && a.month < b.month)
    || (a.year == b.year && a.month == b.month && a.day < b.day)
  }

  /** Chronological order of timestamps: `a` is not later than `b`. */
  predicate NoLaterThan(a: Timestamp, b: Timestamp) {
    Before(a.date, b.date) || (a.date == b.date && a.nanos <= b.nanos)
  }

  /** Months elapsed since January of year 0. */
  function MonthIndex(d: Date): int {
    d.year * 12 + d.month - 1
  }

  function Min(a: int, b: int): int {
    if a <= b then a else b
  }

  /** The date `k` calendar months before `d`, with the day clamped to the
      length of the target month. */
  function MonthsBefore(d: Date, k: nat): (r: Date)
    requires ValidDate(d)
    ensures ValidDate(r)
    ensures MonthIndex(r) == MonthIndex(d) - k
    ensures r.day == d.day || (DaysInMonth(r.year, r.month) < d.day && r.day == DaysInMonth(r.year, r.month))
  {
    var index := MonthIndex(d) - k;
    var y := index / 12;
    var m := index % 12 + 1;
    Date(y, m, Min(d.day, DaysInMonth(y, m)))
  }

  /** `t` minus an offset of `k` months, as `t - DateOffset(months=k)`. */
  function SubMonths(t: Timestamp, k: nat): (r: Timestamp)
    requires ValidTimestamp(t)
    ensures ValidTimestamp(r)
    ensures r.nanos == t.nanos
    ensures MonthIndex(r.date) == MonthIndex(t.date) - k
  {
    Timestamp(MonthsBefore(t.date, k), t.nanos)
  }

  /** `t` minus an offset of `k` years, as `t - DateOffset(years=k)`: the
      same month `k` years earlier, 29 February becoming 28 February when the
      target year is not a leap year. */
  function SubYears(t: Timestamp, k: nat): (r: Timestamp)
    requires ValidTimestamp(t)
    ensures ValidTimestamp(r)
    ensures r.nanos == t.nanos
    ensures r.date.year == t.date.year - k && r.date.month == t.date.month
    ensures r.date.day == t.date.day || (t.date.month == 2 && t.date.day == 29 && !IsLeapYear(r.date.year) && r.date.day == 28)
  {
    var y := t.date.year - k;
    Timestamp(Date(y, t.date.month, Min(t.date.day, DaysInMonth(y, t.date.month))), t.nanos)
  }

  /** On valid dates, an earlier month index means an earlier date. */
  lemma MonthIndexOrder(a: Date, b: Date)
    requires 1 <= a.month <= 12 && 1 <= b.month <= 12
    requires MonthIndex(a) < MonthIndex(b)
    ensures Before(a, b)
  {
  }

  /** On valid dates, equal month indexes mean the same year and month. */
  lemma SameMonthIndex(a: Date, b: Date)
    requires 1 <= a.month <= 12 && 1 <= b.month <= 12
    requires MonthIndex(a) == MonthIndex(b)
    ensures a.year == b.year && a.month == b.month
  {
  }

  /** An offset of `k` years is the same as an offset of `12 * k` months. */
  lemma SubYearsIsTwelveMonths(t: Timestamp, k: nat)
    requires ValidTimestamp(t)
    ensures SubYears(t, k) == SubMonths(t, 12 * k)
  {
    var a := SubYears(t, k);
    var b := SubMonths(t, 12 * k);
    assert MonthIndex(a.date) == MonthIndex(b.date);
    SameMonthIndex(a.date, b.date);
  }

  /** Subtracting a positive number of months gives a strictly earlier timestamp. */
  lemma SubMonthsEarlier(t: Timestamp, k: nat)
    requires ValidTimestamp(t) && 0 < k
    ensures NoLaterThan(SubMonths(t, k), t)
    ensures SubMonths(t, k) != t
  {
    MonthIndexOrder(SubMonths(t, k).date, t.date);
  }

  /** The further back the offset, the earlier the result. */
  lemma SubMonthsAntitone(t: Timestamp, a: nat, b: nat)
    requires ValidTimestamp(t) && a <= b
    ensures NoLaterThan(SubMonths(t, b), SubMonths(t, a))
    ensures a < b ==> Before(SubMonths(t, b).date, SubMonths(t, a).date)
  {
    if a < b {
      MonthIndexOrder(SubMonths(t, b).date, SubMonths(t, a).date);
    }
  }

  /** A bar dated `d` (midnight) is at or after `start` exactly when `d` is a
      later day, or it is `start`'s own day and `start` is itself midnight. */
  lemma MidnightAtOrAfter(start: Timestamp, d: Date)
    ensures NoLaterThan(start, Midnight(d)) <==> Before(start.date, d) || (start.date == d && start.nanos == 0)
  {
  }
}

=== FILE: dashboard.dfy ===
/** The two consumers of the pipeline on one render pass: the candlestick
    chart (ascending rows, app/main.py lines 100-176) and, only when the
    chart was built, the recent-data table (descending rows, at most ten,
    lines 273-320).  Each path reads the clock itself, so a pass has two
    "now" values. */
module Dashboard {
  import opened Outcomes
  import opened Calendar
  import opened Intervals
  import opened Listing
  import opened Periods
  import opened Normalizer

  /** How many rows the table shows, as `df.head(10)`. */
  const TableRows: nat := 10

  /** The rows the candlestick chart plots. */
  function Chart(payload: Payload, interval: string, period: string, now: Timestamp): (r: Result<seq<Row>, Problem>)
    requires ValidTimestamp(now)
    ensures r.Success? ==> RowsSorted(Ascending, r.value)
  {
    Normalize(payload, interval, period, now, Ascending)
  }

  /** The first rows of a sequence, at most `n` of them. */
  function Take(rows: seq<Row>, n: nat): (r: seq<Row>)
    ensures |r| == Min(n, |rows|)
    ensures r == rows[..|r|]
  {
    if |rows| <= n then rows else rows[..n]
  }

  lemma TakeKeepsPrefix(rows: seq<Row>, n: nat)
    ensures forall j | 0 <= j < Min(n, |rows|) :: rows[j] in Take(rows, n)
  {
  }

  /** The rows the table shows: newest first, at most ten. */
  function Table(payload: Payload, interval: string, period: string, now: Timestamp): (r: Result<seq<Row>, Problem>)
    requires ValidTimestamp(now)
    ensures r.Success? ==> |r.value| <= TableRows && RowsSorted(Descending, r.value)
    ensures r.Success? <==> Chart(payload, interval, period, now).Success?
  {
    match Normalize(payload, interval, period, now, Descending)
    case Failure(e) => Failure(e)
    case Success(rows) => Success(Take(rows, TableRows))
  }

  /** What one pass puts on the page. */
  datatype Screen = Screen(chart: seq<Row>, table: seq<Row>)

  /** One pass: no chart means nothing below it either.  The table path has
      no error handler of its own; in this model it cannot fail once the
      chart was built, because it reads the same series with the same checks.
      The source's integer conversion of the table's volume column, which can
      still raise there, is not part of this model. */
  function Render(payload: Payload, interval: string, period: string, chartNow: Timestamp, tableNow: Timestamp): (r: Option<Screen>)
    requires ValidTimestamp(chartNow) && ValidTimestamp(tableNow)
    ensures r.Some? <==> SelectedKey(interval) in payload && Tabular(payload[SelectedKey(interval)])
    ensures r.Some? ==> RowsSorted(Ascending, r.value.chart) && RowsSorted(Descending, r.value.table)
    ensures r.Some? ==> |r.value.table| <= TableRows
  {
    match Chart(payload, interval, period, chartNow)
    case Failure(_) => None
    case Success(chart) => Some(Screen(chart, Table(payload, interval, period, tableNow).value))
  }

  /** Read at the same instant, the table is the chart read backwards and
      cut to its first ten rows. */
  lemma TableIsChartReversed(payload: Payload, interval: string, period: string, now: Timestamp)
    requires ValidTimestamp(now)
    ensures Render(payload, interval, period, now, now).Some? ==>
      var s := Render(payload, interval, period, now, now).value;
      s.table == Take(Reverse(s.chart), TableRows)
  {
    DescendingReversesAscending(payload, interval, period, now);
  }

  /** The table holds the most recent rows of the filtered series: every
      filtered row it leaves out is older than every row it shows. */
  lemma TableHoldsMostRecent(payload: Payload, interval: string, period: string, now: Timestamp)
    requires ValidTimestamp(now)
    ensures Table(payload, interval, period, now).Success? ==>
      var all := Normalize(payload, interval, period, now, Descending).value;
      var shown := Table(payload, interval, period, now).value;
      && |shown| == Min(TableRows, |all|)
      && shown == all[..|shown|]
      && forall x, y | x in shown && y in all && y !in shown :: Before(y.date, x.date)
  {
    if Table(payload, interval, period, now).Success? {
      var all := Normalize(payload, interval, period, now, Descending).value;
      var shown := Table(payload, interval, period, now).value;
      forall x, y | x in shown && y in all && y !in shown
        ensures Before(y.date, x.date)
      {
        var i :| 0 <= i < |shown| && shown[i] == x;
        var j :| 0 <= j < |all| && all[j] == y;
        TakeKeepsPrefix(all, TableRows);
        assert all[i] == x;
      }
    }
  }

  /** The worked example of a one-record daily payload with period "max". */
  lemma SingleRecordExample(now: Timestamp)
    requires ValidTimestamp(now)
    ensures var d := Date(2024, 1, 2);
      var payload := map["Time Series (Daily)" := map[d := [Number(10.0), Number(12.0), Number(9.0), Number(11.0), Number(1000.0)]]];
      Chart(payload, "Daily", "max", now) == Success([Row(d, 10.0, 12.0, 9.0, 11.0, 1000.0)])
  {
    var d := Date(2024, 1, 2);
    var series := map[d := [Number(10.0), Number(12.0), Number(9.0), Number(11.0), Number(1000.0)]];
    assert Upper("Daily") == "DAILY";
    var payload := map["Time Series (Daily)" := series];
    var listed := Sort(Ascending, series.Keys);
    assert listed[0] in series.Keys;
    assert listed == [d];
    assert Tabular(series);
    assert RowsOf(series, [d]) == [RowAt(series, d)];
    assert Listed(series, Ascending) == [Row(d, 10.0, 12.0, 9.0, 11.0, 1000.0)];
    assert PeriodStart("max", now, series.Keys) == None;
  }

  /** A text value anywhere in the series yields no chart and no table:
      values are converted before the period filter runs, so it fails the
      pass whether or not the filter would keep its record (here a 1990
      record under a one-month period). */
  lemma TextValueFails(now: Timestamp)
    requires ValidTimestamp(now)
    ensures var series := map[Date(1990, 1, 2) := [Number(1.0), Number(1.0), Number(1.0), Text("n/a"), Number(5.0)]];
      var payload := map["Weekly Time Series" := series];
      && Chart(payload, "weekly", "1 Month", now) == Failure(NonNumeric)
      && Render(payload, "weekly", "1 Month", now, now).None?
  {
    assert Upper("weekly") == "WEEKLY";
  }
}

=== FILE: intervals.dfy ===
/** Choosing which time series of the payload to read from the interval
    the user picked (app/main.py, lines 104-111 for the chart and 278-285 for
    the table).  The comparison upper-cases the interval name first, so it is
    case-insensitive, and every name that is not daily, weekly or monthly
    falls back to the daily series. */
module Intervals {

  datatype Interval = Daily | Weekly | Monthly

  /** Upper case of one character: the ASCII letters, plus the two
      characters outside ASCII whose upper case is a single ASCII letter
      (dotless i and long s). */
  function UpperChar(c: char): (u: char)
    ensures !('a' <= u <= 'z')
    ensures 'a' <= c <= 'z' ==> 'A' <= u <= 'Z' && u as int - 'A' as int == c as int - 'a' as int
    ensures !('a' <= c <= 'z') && c != '\U{131}' && c != '\U{17F}' ==> u == c
  {
    if 'a' <= c <= 'z' then (c as int - 32) as char
    else if c == '\U{131}' then 'I'
    else if c == '\U{17F}' then 'S'
    else c
  }

  /** Upper case of a string: no lower-case ASCII letter is left, each one
      becomes its capital, and every other character is kept, except the
      dotless i and the long s, which become "I" and "S". */
  function Upper(s: string): (u: string)
    ensures |u| == |s|
    ensures forall i | 0 <= i < |u| :: !('a' <= u[i] <= 'z')
    ensures forall i | 0 <= i < |s| && 'a' <= s[i] <= 'z' :: u[i] as int - 'A' as int == s[i] as int - 'a' as int
    ensures forall i | 0 <= i < |s| && s[i] == '\U{131}' :: u[i] == 'I'
    ensures forall i | 0 <= i < |s| && s[i] == '\U{17F}' :: u[i] == 'S'
    ensures forall i | 0 <= i < |s| && !('a' <= s[i] <= 'z') && s[i] != '\U{131}' && s[i] != '\U{17F}' :: u[i] == s[i]
  {
    seq(|s|, i requires 0 <= i < |s| => UpperChar(s[i]))
  }

  /** The interval a name selects; total, with daily as the fallback. */
  function ParseInterval(name: string): Interval {
    var u := Upper(name);
    if u == "DAILY" then Daily
    else if u == "WEEKLY" then Weekly
    else if u == "MONTHLY" then Monthly
    else Daily
  }

  /** The payload key under which the provider returns each series. */
  function SeriesKey(i: Interval): string {
    match i
    case Daily => "Time Series (Daily)"
    case Weekly => "Weekly Time Series"
    case Monthly => "Monthly Time Series"
  }

  /** The key the chart and the table read for an interval name. */
  function SelectedKey(name: string): (key: string)
    ensures key in {"Time Series (Daily)", "Weekly Time Series", "Monthly Time Series"}
    ensures key == "Weekly Time Series" <==> Upper(name) == "WEEKLY"
    ensures key == "Monthly Time Series" <==> Upper(name) == "MONTHLY"
    ensures key == "Time Series (Daily)" <==> Upper(name) != "WEEKLY" && Upper(name) != "MONTHLY"
  {
    SeriesKey(ParseInterval(name))
  }

  /** The names the interval selector offers (app/main.py, lines 27-31). */
  function IntervalName(i: Interval): string {
    match i
    case Daily => "Daily"
    case Weekly => "Weekly"
    case Monthly => "Monthly"
  }

  /** Each offered name selects its own interval. */
  lemma ParseIntervalName(i: Interval)
    ensures ParseInterval(IntervalName(i)) == i
  {
    match i
    case Daily => assert Upper("Daily") == "DAILY";
    case Weekly => assert Upper("Weekly") == "WEEKLY";
    case Monthly => assert Upper("Monthly") == "MONTHLY";
  }

  /** Upper-casing twice is the same as upper-casing once. */
  lemma UpperIdempotent(s: string)
    ensures Upper(Upper(s)) == Upper(s)
  {
  }

  /** Selection ignores case: names that agree once upper-cased select the
      same interval, and in particular a name selects the same series as
      its upper-case form. */
  lemma SelectionIgnoresCase(s: string, t: string)
    requires Upper(s) == Upper(t)
    ensures ParseInterval(s) == ParseInterval(t)
    ensures ParseInterval(s) == ParseInterval(Upper(s))
  {
    UpperIdempotent(s);
  }

  /** A name that is none of the three, such as "QUARTERLY", falls back to
      the daily series instead of failing. */
  lemma UnknownIntervalFallsBack()
    ensures SelectedKey("QUARTERLY") == "Time Series (Daily)"
    ensures SelectedKey("") == "Time Series (Daily)"
    ensures SelectedKey("wEeKlY") == "Weekly Time Series"
  {
    assert Upper("QUARTERLY") == "QUARTERLY";
    assert Upper("") == "";
    assert Upper("wEeKlY") == "WEEKLY";
  }
}

=== FILE: listing.dfy ===
/** Listing a set of dates in chronological order, as the chart's
    `sort_index()` (app/main.py, line 119) and the table's
    `sort_index(ascending=False)` (line 290) do with the payload's dates. */
module Listing {
  import opened Calendar

  datatype Direction = Ascending | Descending

  /** `a` is listed strictly before `b` when sorting in direction `dir`. */
  predicate Precedes(dir: Direction, a: Date, b: Date) {
    match dir
    case Ascending => Before(a, b)
    case Descending => Before(b, a)
  }

  predicate StrictlySorted(dir: Direction, s: seq<Date>) {
    forall i, j | 0 <= i < j < |s| :: Precedes(dir, s[i], s[j])
  }

  /** `d` is the element of `s` that a listing in direction `dir` starts with. */
  predicate IsFirst(dir: Direction, d: Date, s: set<Date>) {
    d in s && forall e | e in s && e != d :: Precedes(dir, d, e)
  }

  lemma PrecedesTransitive(dir: Direction, a: Date, b: Date, c: Date)
    requires Precedes(dir, a, b) && Precedes(dir, b, c)
    ensures Precedes(dir, a, c)
  {
  }

  lemma {:induction false} FirstExists(dir: Direction, s: set<Date>)
    requires s != {}
    ensures exists d :: IsFirst(dir, d, s)
    decreases |s|
  {
    var x :| x in s;
    if s == {x} {
      assert IsFirst(dir, x, s);
    } else {
      FirstExists(dir, s - {x});
      var m :| IsFirst(dir, m, s - {x});
      if Precedes(dir, x, m) {
        forall e | e in s && e != x
          ensures Precedes(dir, x, e)
        {
          if e != m {
            PrecedesTransitive(dir, x, m, e);
          }
        }
        assert IsFirst(dir, x, s);
      } else {
        assert IsFirst(dir, m, s);
      }
    }
  }

  /** The earliest (ascending) or latest (descending) date of a non-empty set. */
  function First(dir: Direction, s: set<Date>): (d: Date)
    requires s != {}
    ensures IsFirst(dir, d, s)
  {
    FirstExists(dir, s);
    var d :| IsFirst(dir, d, s);
    d
  }

  /** The dates of `s`, each once, in direction `dir`. */
  function Sort(dir: Direction, s: set<Date>): (r: seq<Date>)
    ensures StrictlySorted(dir, r)
    ensures |r| == |s|
    ensures forall d :: d in r <==> d in s
    decreases |s|
  {
    if s == {} then []
    else
      var d := First(dir, s);
      [d] + Sort(dir, s - {d})
  }

  /** A set has only one first element in a given direction. */
  lemma FirstUnique(dir: Direction, d: Date, e: Date, s: set<Date>)
    requires IsFirst(dir, d, s) && IsFirst(dir, e, s)
    ensures d == e
  {
  }

  /** A strictly sorted listing starts with the first element of its dates. */
  lemma SortedStartsWithFirst(dir: Direction, a: seq<Date>, s: set<Date>)
    requires a != [] && StrictlySorted(dir, a)
    requires forall d :: d in a <==> d in s
    ensures IsFirst(dir, a[0], s)
  {
    forall e | e in s && e != a[0]
      ensures Precedes(dir, a[0], e)
    {
      var i :| 0 <= i < |a| && a[i] == e;
    }
  }

  lemma HeadIsMember<T>(s: seq<T>)
    ensures s != [] ==> s[0] in s
  {
  }

  /** A strictly sorted listing of a set is unique. */
  lemma {:induction false} SortedListingUnique(dir: Direction, a: seq<Date>, b: seq<Date>)
    requires StrictlySorted(dir, a) && StrictlySorted(dir, b)
    requires forall d :: d in a <==> d in b
    ensures a == b
    decreases |a|
  {
    if a == [] {
      HeadIsMember(b);
    } else {
      var s := set d | d in a;
      assert b != [] by {
        assert a[0] in b;
      }
      SortedStartsWithFirst(dir, a, s);
      SortedStartsWithFirst(dir, b, s);
      FirstUnique(dir, a[0], b[0], s);
      forall d
        ensures d in a[1..] <==> d in b[1..]
      {
        if d in a[1..] {
          var i :| 1 <= i < |a| && a[i] == d;
          assert Precedes(dir, a[0], a[i]);
          assert d in b;
        }
        if d in b[1..] {
          var j :| 1 <= j < |b| && b[j] == d;
          assert Precedes(dir, b[0], b[j]);
          assert d in a;
        }
      }
      SortedListingUnique(dir, a[1..], b[1..]);
      assert a == [a[0]] + a[1..];
      assert b == [b[0]] + b[1..];
    }
  }

  function Reverse<T>(s: seq<T>): (r: seq<T>)
    ensures |r| == |s|
    ensures forall i | 0 <= i < |s| :: r[i] == s[|s| - 1 - i]
  {
    if s == [] then [] else Reverse(s[1..]) + [s[0]]
  }

  lemma ReverseAppend<T>(a: seq<T>, b: seq<T>)
    ensures Reverse(a + b) == Reverse(b) + Reverse(a)
  {
  }

  /** Reversing an ascending listing gives a descending one. */
  lemma ReverseFlipsDirection(s: seq<Date>)
    requires StrictlySorted(Ascending, s)
    ensures StrictlySorted(Descending, Reverse(s))
  {
  }

  /** The descending listing is exactly the reverse of the ascending one. */
  lemma DescendingIsReverse(s: set<Date>)
    ensures Sort(Descending, s) == Reverse(Sort(Ascending, s))
  {
    var up := Sort(Ascending, s);
    var down := Reverse(up);
    ReverseFlipsDirection(up);
    forall d
      ensures d in down <==> d in s
    {
      if d in up {
        var i :| 0 <= i < |up| && up[i] == d;
        assert down[|up| - 1 - i] == d;
      }
      if d in down {
        var i :| 0 <= i < |down| && down[i] == d;
        assert up[|up| - 1 - i] == d;
      }
    }
    SortedListingUnique(Descending, Sort(Descending, s), down);
  }
}

=== FILE: normalizer.dfy ===
/** The series-shaping pipeline that the chart (app/main.py, lines 100-176)
    and the recent-data table (lines 277-320) each run on the parsed
    time-series payload: pick the series for the interval, read each record's
    five values positionally as open, high, low, close and volume, sort by
    date, and keep the rows on or after the period's cutoff.  Any failure
    along the way yields no rows at all. */
module Normalizer {
  import opened Outcomes
  import opened Calendar
  import opened Intervals
  import opened Listing
  import opened Periods

  /** One raw value of a record, as `pd.to_numeric` sees it: a number, or
      text it rejects. */
  datatype Cell = Number(value: real) | Text(raw: string)

  /** A record's values, in the provider's field order. */
  type Record = seq<Cell>

  /** One time series: each date's record. */
  type Series = map<Date, Record>

  /** The parsed time-series response: each top-level key's series. */
  type Payload = map<string, Series>

  /** The fields of a record, in order: open, high, low, close, volume. */
  const FieldCount := 5

  datatype Row = Row(date: Date, open: real, high: real, low: real, close: real, volume: real)

  /** Why the pipeline produced nothing. */
  datatype Problem =
    | MissingSeries(key: string)  // the payload lacks the selected key
    | ColumnMismatch              // the series does not have exactly five columns
    | NonNumeric                  // some value is not a number

  /** Naming the five columns succeeds: the series has records, and each
      has exactly five values (an empty series has no columns at all). */
  predicate Rectangular(series: Series) {
    |series| > 0 && forall d | d in series :: |series[d]| == FieldCount
  }

  /** Every value of every record is a number. */
  predicate Numeric(series: Series) {
    forall d, i | d in series && 0 <= i < |series[d]| :: series[d][i].Number?
  }

  predicate Tabular(series: Series) {
    Rectangular(series) && Numeric(series)
  }

  /** The row read from the record of date `d`. */
  function RowAt(series: Series, d: Date): Row
    requires d in series && Tabular(series)
  {
    var rec := series[d];
    Row(d, rec[0].value, rec[1].value, rec[2].value, rec[3].value, rec[4].value)
  }

  predicate RowsSorted(dir: Direction, rows: seq<Row>) {
    forall i, j | 0 <= i < j < |rows| :: Precedes(dir, rows[i].date, rows[j].date)
  }

  /** The rows of the records of `dates`, in that order. */
  function RowsOf(series: Series, dates: seq<Date>): (r: seq<Row>)
    requires Tabular(series)
    requires forall d | d in dates :: d in series
    ensures |r| == |dates|
    ensures forall i | 0 <= i < |dates| :: r[i] == RowAt(series, dates[i]) && r[i].date == dates[i]
    ensures forall x :: x in r <==> x.date in dates && x == RowAt(series, x.date)
  {
    if dates == [] then []
    else [RowAt(series, dates[0])] + RowsOf(series, dates[1..])
  }

  /** The whole series as rows, sorted in direction `dir`. */
  function Listed(series: Series, dir: Direction): (r: seq<Row>)
    requires Tabular(series)
    ensures |r| == |series|
    ensures RowsSorted(dir, r)
    ensures forall x :: x in r <==> x.date in series && x == RowAt(series, x.date)
  {
    RowsOf(series, Sort(dir, series.Keys))
  }

  /** `a` is `b` with some elements left out, the rest in the same order. */
  predicate IsSubsequence<T(==)>(a: seq<T>, b: seq<T>)
    decreases |b|
  {
    || a == []
    || (b != [] && ((a[0] == b[0] && IsSubsequence(a[1..], b[1..])) || IsSubsequence(a, b[1..])))
  }

  /** The rows dated at or after `start`, as `df[df.index >= start_date]`. */
  function KeepFrom(rows: seq<Row>, start: Timestamp): (r: seq<Row>)
    ensures forall x :: x in r <==> x in rows && NoLaterThan(start, Midnight(x.date))
    ensures IsSubsequence(r, rows)
  {
    if rows == [] then []
    else if NoLaterThan(start, Midnight(rows[0].date)) then [rows[0]] + KeepFrom(rows[1..], start)
    else KeepFrom(rows[1..], start)
  }

  /** The period filter: no comparison at all for "max". */
  function Window(rows: seq<Row>, start: Option<Timestamp>): (r: seq<Row>)
    ensures IsSubsequence(r, rows)
    ensures start.None? ==> r == rows
    ensures start.Some? ==> forall x :: x in r <==> x in rows && NoLaterThan(start.value, Midnight(x.date))
  {
    match start
    case None => SubsequenceReflexive(rows); rows
    case Some(t) => KeepFrom(rows, t)
  }

  lemma {:induction false} SubsequenceReflexive<T>(s: seq<T>)
    ensures IsSubsequence(s, s)
    decreases |s|
  {
    if s != [] {
      SubsequenceReflexive(s[1..]);
    }
  }

  /** A row belongs in the output for `period`: it is the row of one of the
      series' dates, and that date survives the period filter. */
  predicate Belongs(series: Series, period: string, now: Timestamp, x: Row)
    requires Tabular(series) && ValidTimestamp(now)
  {
    x.date in series && InPeriod(period, now, series.Keys, x.date) && x == RowAt(series, x.date)
  }

  /** The pipeline: the chart runs it with `Ascending`, the table with
      `Descending`.  Every value is converted before the filter, so a bad
      value anywhere in the series fails the whole pipeline. */
  function Normalize(payload: Payload, interval: string, period: string, now: Timestamp, dir: Direction): (r: Result<seq<Row>, Problem>)
    requires ValidTimestamp(now)
    ensures r.Failure? <==> SelectedKey(interval) !in payload || !Tabular(payload[SelectedKey(interval)])
    ensures r.Success? ==> RowsSorted(dir, r.value)
    ensures r.Success? ==> forall x :: x in r.value <==> Belongs(payload[SelectedKey(interval)], period, now, x)
  {
    var key := SelectedKey(interval);
    if key !in payload then Failure(MissingSeries(key))
    else
      var series := payload[key];
      if !Rectangular(series) then Failure(ColumnMismatch)
      else if !Numeric(series) then Failure(NonNumeric)
      else
        var listed := Listed(series, dir);
        var rows := Window(listed, PeriodStart(period, now, series.Keys));
        KeptRowsStaySorted(dir, rows, listed);
        Success(rows)
  }

  lemma {:induction false} SubsequenceMembers<T>(a: seq<T>, b: seq<T>)
    requires IsSubsequence(a, b)
    ensures forall x | x in a :: x in b
    decreases |b|
  {
    if a == [] {
    } else if a[0] == b[0] && IsSubsequence(a[1..], b[1..]) {
      SubsequenceMembers(a[1..], b[1..]);
      assert forall x | x in a :: x == a[0] || x in a[1..];
    } else {
      SubsequenceMembers(a, b[1..]);
    }
  }

  /** Leaving rows out of a sorted sequence keeps it sorted. */
  lemma {:induction false} KeptRowsStaySorted(dir: Direction, a: seq<Row>, b: seq<Row>)
    requires IsSubsequence(a, b) && RowsSorted(dir, b)
    ensures RowsSorted(dir, a)
    decreases |b|
  {
    if a == [] {
    } else if a[0] == b[0] && IsSubsequence(a[1..], b[1..]) {
      KeptRowsStaySorted(dir, a[1..], b[1..]);
      SubsequenceMembers(a[1..], b[1..]);
      forall j | 0 < j < |a|
        ensures Precedes(dir, a[0].date, a[j].date)
      {
        assert a[j] in a[1..];
        var k :| 0 <= k < |b[1..]| && b[1..][k] == a[j];
        assert b[k + 1] == a[j];
      }
    } else {
      KeptRowsStaySorted(dir, a, b[1..]);
    }
  }

  /** The pipeline fails exactly on a missing series key, a series that is
      empty or has a record without exactly five values, or a value that is
      not a number; and it then names which. */
  lemma FailureReasons(payload: Payload, interval: string, period: string, now: Timestamp, dir: Direction)
    requires ValidTimestamp(now)
    ensures var key := SelectedKey(interval);
      && (Normalize(payload, interval, period, now, dir) == Failure(MissingSeries(key)) <==> key !in payload)
      && (Normalize(payload, interval, period, now, dir) == Failure(ColumnMismatch) <==> key in payload && !Rectangular(payload[key]))
      && (Normalize(payload, interval, period, now, dir) == Failure(NonNumeric) <==> key in payload && Rectangular(payload[key]) && !Numeric(payload[key]))
  {
  }

  lemma {:induction false} KeepFromAppend(a: seq<Row>, b: seq<Row>, start: Timestamp)
    ensures KeepFrom(a + b, start) == KeepFrom(a, start) + KeepFrom(b, start)
    decreases |a|
  {
    if a == [] {
      assert a + b == b;
    } else {
      assert (a + b)[0] == a[0];
      assert (a + b)[1..] == a[1..] + b;
      KeepFromAppend(a[1..], b, start);
    }
  }

  /** Filtering commutes with reversing. */
  lemma {:induction false} KeepFromReverse(rows: seq<Row>, start: Timestamp)
    ensures KeepFrom(Reverse(rows), start) == Reverse(KeepFrom(rows, start))
    decreases |rows|
  {
    if rows != [] {
      var head := KeepFrom([rows[0]], start);
      KeepFromReverse(rows[1..], start);
      KeepFromAppend(Reverse(rows[1..]), [rows[0]], start);
      assert rows == [rows[0]] + rows[1..];
      KeepFromAppend([rows[0]], rows[1..], start);
      ReverseAppend(head, KeepFrom(rows[1..], start));
    }
  }

  lemma RowsOfReverse(series: Series, dates: seq<Date>)
    requires Tabular(series)
    requires forall d | d in dates :: d in series
    ensures RowsOf(series, Reverse(dates)) == Reverse(RowsOf(series, dates))
  {
  }

  /** The descending pipeline's rows are exactly the ascending pipeline's
      rows in reverse: both sort the same dates and filter with the same
      cutoff, and filtering keeps the order. */
  lemma DescendingReversesAscending(payload: Payload, interval: string, period: string, now: Timestamp)
    requires ValidTimestamp(now)
    ensures Normalize(payload, interval, period, now, Ascending).Success?
        <==> Normalize(payload, interval, period, now, Descending).Success?
    ensures Normalize(payload, interval, period, now, Ascending).Success? ==>
      Normalize(payload, interval, period, now, Descending).value == Reverse(Normalize(payload, interval, period, now, Ascending).value)
  {
    var key := SelectedKey(interval);
    if key in payload && Tabular(payload[key]) {
      var series := payload[key];
      var up := Sort(Ascending, series.Keys);
      DescendingIsReverse(series.Keys);
      RowsOfReverse(series, up);
      match PeriodStart(period, now, series.Keys)
      case None =>
      case Some(t) => KeepFromReverse(RowsOf(series, up), t);
    }
  }

  /** With "max", or a period name that is none of the seven, the output
      holds every record of the series, one row per date. */
  lemma WholeHistory(payload: Payload, interval: string, period: string, now: Timestamp, dir: Direction)
    requires ValidTimestamp(now)
    requires LookbackOf(period).None?
    ensures Normalize(payload, interval, period, now, dir).Success? ==>
      var series := payload[SelectedKey(interval)];
      && |Normalize(payload, interval, period, now, dir).value| == |series|
      && forall d | d in series :: RowAt(series, d) in Normalize(payload, interval, period, now, dir).value
  {
    var key := SelectedKey(interval);
    if key in payload && Tabular(payload[key]) {
      var series := payload[key];
      var listed := Listed(series, dir);
      match PeriodStart(period, now, series.Keys)
      case None =>
      case Some(t) =>
        KeepFromAll(listed, t);
    }
  }

  lemma {:induction false} KeepFromAll(rows: seq<Row>, start: Timestamp)
    requires forall i | 0 <= i < |rows| :: NoLaterThan(start, Midnight(rows[i].date))
    ensures KeepFrom(rows, start) == rows
    decreases |rows|
  {
    if rows != [] {
      KeepFromAll(rows[1..], start);
    }
  }

  /** For a named period the filter is exact: a date's row is kept if and
      only if the date is at or after `now` minus the period, and the kept
      rows are a subsequence of the sorted series. */
  lemma NamedPeriodFilter(payload: Payload, interval: string, period: string, now: Timestamp, dir: Direction)
    requires ValidTimestamp(now)
    requires LookbackOf(period).Some?
    ensures Normalize(payload, interval, period, now, dir).Success? ==>
      var series := payload[SelectedKey(interval)];
      var rows := Normalize(payload, interval, period, now, dir).value;
      var cutoff := SubMonths(now, SpanInMonths(LookbackOf(period).value));
      && (forall d | d in series :: RowAt(series, d) in rows <==> NoLaterThan(cutoff, Midnight(d)))
      && IsSubsequence(rows, Listed(series, dir))
  {
  }

  /** A shorter named period keeps a subset of the rows a longer one keeps. */
  lemma ShorterPeriodSubset(payload: Payload, interval: string, p: string, q: string, now: Timestamp, dir: Direction)
    requires ValidTimestamp(now)
    requires LookbackOf(p).Some? && LookbackOf(q).Some?
    requires SpanInMonths(LookbackOf(p).value) <= SpanInMonths(LookbackOf(q).value)
    ensures Normalize(payload, interval, p, now, dir).Success? <==> Normalize(payload, interval, q, now, dir).Success?
    ensures Normalize(payload, interval, p, now, dir).Success? ==>
      forall x | x in Normalize(payload, interval, p, now, dir).value :: x in Normalize(payload, interval, q, now, dir).value
  {
    var key := SelectedKey(interval);
    if key in payload && Tabular(payload[key]) {
      forall x | x in Normalize(payload, interval, p, now, dir).value
        ensures x in Normalize(payload, interval, q, now, dir).value
      {
        ShorterPeriodKeepsLess(p, q, now, payload[key].Keys, x.date);
      }
    }
  }
}

=== FILE: outcomes.dfy ===
/** Optional values and success/failure results shared by the other modules. */
module Outcomes {

  /** A value that may be absent. */
  datatype Option<+T> = None | Some(value: T)

  /** The outcome of a step that can fail; `Failure` carries the reason. */
  datatype Result<+T, +E> = Success(value: T) | Failure(error: E)
}

=== FILE: periods.dfy ===
/** The period filter's cutoff (app/main.py, lines 129-145 for the chart and
    299-315 for the table): "max" turns the filter off, the six named
    periods subtract a calendar offset from "now", and any other name falls
    back to the earliest date of the series, which keeps every row. */
module Periods {
  import opened Outcomes
  import opened Calendar
  import opened Listing

  /** A calendar offset, as `DateOffset(months=...)` or `DateOffset(years=...)`. */
  datatype Lookback = Months(count: nat) | Years(count: nat)

  /** The offset of each named period; `None` for every other name. */
  function LookbackOf(period: string): Option<Lookback> {
    if period == "1 Month" then Some(Months(1))
    else if period == "3 Months" then Some(Months(3))
    else if period == "6 Months" then Some(Months(6))
    else if period == "1 Year" then Some(Years(1))
    else if period == "5 Years" then Some(Years(5))
    else if period == "10 Years" then Some(Years(10))
    else None
  }

  /** The length of an offset in calendar months. */
  function SpanInMonths(lb: Lookback): nat {
    match lb
    case Months(k) => k
    case Years(k) => 12 * k
  }

  /** `now` minus the offset. */
  function Subtract(now: Timestamp, lb: Lookback): (r: Timestamp)
    requires ValidTimestamp(now)
    ensures r == SubMonths(now, SpanInMonths(lb))
  {
    match lb
    case Months(k) => SubMonths(now, k)
    case Years(k) => SubYearsIsTwelveMonths(now, k); SubYears(now, k)
  }

  /** The first timestamp the filter keeps, or `None` when it keeps
      everything without comparing; `dates` are the series' dates. */
  function PeriodStart(period: string, now: Timestamp, dates: set<Date>): (r: Option<Timestamp>)
    requires ValidTimestamp(now) && dates != {}
    ensures r.None? <==> period == "max"
    ensures LookbackOf(period).Some? ==> r == Some(SubMonths(now, SpanInMonths(LookbackOf(period).value)))
    ensures r.Some? && LookbackOf(period).None? ==> forall d | d in dates :: NoLaterThan(r.value, Midnight(d))
  {
    if period == "max" then None
    else match LookbackOf(period)
      case Some(lb) => Some(Subtract(now, lb))
      case None => Some(Midnight(First(Ascending, dates)))
  }

  /** Whether a row dated `d` survives the period filter. */
  predicate InPeriod(period: string, now: Timestamp, dates: set<Date>, d: Date)
    requires ValidTimestamp(now) && dates != {}
  {
    match PeriodStart(period, now, dates)
    case None => true
    case Some(start) => NoLaterThan(start, Midnight(d))
  }

  /** The named periods of the period selector (app/main.py, lines 33-41),
      shortest first; the selector's last entry is "max". */
  const NamedPeriods: seq<string> := ["1 Month", "3 Months", "6 Months", "1 Year", "5 Years", "10 Years"]

  /** Every named period's cutoff lies strictly before `now`. */
  lemma CutoffBeforeNow(period: string, now: Timestamp, dates: set<Date>)
    requires ValidTimestamp(now) && dates != {}
    requires LookbackOf(period).Some?
    ensures PeriodStart(period, now, dates).Some?
    ensures NoLaterThan(PeriodStart(period, now, dates).value, now)
    ensures PeriodStart(period, now, dates).value != now
  {
    SubMonthsEarlier(now, SpanInMonths(LookbackOf(period).value));
  }

  /** Each named period has an offset, and the offsets grow strictly along
      the selector's order. */
  lemma NamedPeriodSpans()
    ensures forall i | 0 <= i < |NamedPeriods| :: LookbackOf(NamedPeriods[i]).Some?
    ensures forall i, j | 0 <= i < j < |NamedPeriods| ::
      SpanInMonths(LookbackOf(NamedPeriods[i]).value) < SpanInMonths(LookbackOf(NamedPeriods[j]).value)
  {
  }

  /** Cutoffs are monotone in the period's length: "1 Month" starts after
      "3 Months", which starts after "6 Months", and so on to "10 Years". */
  lemma CutoffsNested(i: int, j: int, now: Timestamp, dates: set<Date>)
    requires ValidTimestamp(now) && dates != {}
    requires 0 <= i < j < |NamedPeriods|
    ensures PeriodStart(NamedPeriods[i], now, dates).Some? && PeriodStart(NamedPeriods[j], now, dates).Some?
    ensures Before(PeriodStart(NamedPeriods[j], now, dates).value.date, PeriodStart(NamedPeriods[i], now, dates).value.date)
  {
    NamedPeriodSpans();
    var a := SpanInMonths(LookbackOf(NamedPeriods[i]).value);
    var b := SpanInMonths(LookbackOf(NamedPeriods[j]).value);
    SubMonthsAntitone(now, a, b);
  }

  /** A row kept by a shorter period is kept by a longer one. */
  lemma ShorterPeriodKeepsLess(p: string, q: string, now: Timestamp, dates: set<Date>, d: Date)
    requires ValidTimestamp(now) && dates != {}
    requires LookbackOf(p).Some? && LookbackOf(q).Some?
    requires SpanInMonths(LookbackOf(p).value) <= SpanInMonths(LookbackOf(q).value)
    requires InPeriod(p, now, dates, d)
    ensures InPeriod(q, now, dates, d)
  {
    SubMonthsAntitone(now, SpanInMonths(LookbackOf(p).value), SpanInMonths(LookbackOf(q).value));
  }

  /** "max", and any name that is not one of the seven, keep every date. */
  lemma WholeHistoryPeriods(period: string, now: Timestamp, dates: set<Date>)
    requires ValidTimestamp(now) && dates != {}
    requires LookbackOf(period).None?
    ensures forall d | d in dates :: InPeriod(period, now, dates, d)
  {
  }
}
